=== FILE: README.md ===
# Research agent loop

A model of the core of a small web-research agent. A question posted to the
`/research` endpoint starts a conversation with a language model. The model
may call two tools: `search_web`, which asks a search provider and returns
the results as text, and `generate_report`, which turns its four arguments
into the final report. The loop lets the model call at most five times.
Within one reply, the calls are handled in order up to and including the
first report call, or up to a search call that raises; later calls are
neither run nor answered. Each handled call whose arguments parsed is
answered with a tool message carrying the call's identifier, and each
handled search call records its query. A request ends with a report, a
plain-text answer wrapped as a report, or a failure. The endpoint's handler
never raises: it turns any failure into a fixed degraded report with an
error text.

Modules, in dependency order:

- `Wrappers`: `Option`.
- `Json`: the parsed argument values of tool calls.
- `Transcript`: messages, tool calls, model replies, and the model as an
  oracle `Llm` from the transcript sent to the reply received.
- `SearchTool`: the `search_web` text format and how the loop invokes the
  tool. The provider is an oracle `Provider` from the ordinal of the search
  in the request and the query to a list of results or an error.
- `ReportTool`: `generate_report`'s argument binding, the implicit report
  and the degraded report.
- `Dispatch`: one turn of tool calls, as a function `ProcessCalls`, with
  lemmas about what a turn answers, records and returns.
- `AgentLoop`: the loop with its cap of five model calls, as a function
  `Loop`/`Agent`. The methods `HandleTurn` and `RunAgent` follow the
  imperative loops and are proved to compute the same results.
- `Endpoint`: the mapping of the loop's outcome or exception to the
  response.
- `Scenarios`: three concrete requests worked out end to end.

Python behaviour that the model makes explicit:

- `generate_report(**args)` binds exactly when the parsed arguments are an
  object whose keys are the four parameters. Python does not enforce type
  annotations, so the report is then the arguments verbatim.
- `search_web(**args)` binds only when `query` is the sole key. Any other
  object with a `query` key raises a `TypeError` inside the caught block,
  so its query is recorded and its answer is the fallback text.
- A search call whose arguments are not an object, or have no `query` key,
  raises at the subscript before the `try`. The exception escapes the loop
  and the request fails with the interpreter's message (`'query'` for a
  missing key, CPython 3.12 wording for the type errors).
- An empty tool-call list is falsy, so such a reply takes the plain-text
  path.
- A report call that fails to bind is still answered and still ends the
  turn. The loop then calls the model again if fewer than five calls have
  been made, and otherwise the request fails with the no-report message.

## Model

| member | source | states |
|---|---|---|
| SearchTool.Format | api.py:21-28 | the text of the results, one labelled block per result in order; every result adds at least the 25 characters of its labels and separators |
| SearchTool.SearchWeb | api.py:146-150 | the answer to a search call; anything but the fallback text means the arguments bound to `query` alone and the provider answered (both directions: `SearchTool.SearchWebResult`) |
| SearchTool.FormatConcat | api.py:23-28 | the text for a concatenation of result lists is the concatenation of their texts |
| SearchTool.FormatLength | api.py:23-28 | the text's length is the sum of the lengths of the per-result blocks |
| SearchTool.BlockAt | api.py:24-27 | result i's block (title, URL and content lines, then a blank line) sits at its place in the text, in result order |
| SearchTool.FormatEmpty | api.py:23-28 | the text is empty exactly when the provider returned no results |
| SearchTool.FormatIsNotFallback | api.py:146-150 | formatted results never equal the fallback text of a failed search |
| SearchTool.SearchWebResult | api.py:146-150 | the tool answer is the formatted results iff the arguments bound to `query` alone and the provider answered; otherwise it is the fallback text |
| ReportTool.Implicit | api.py:183-188 | the report built from a plain-text answer has the four fields; its values are stated by `AgentLoop.ImplicitAnswerEndsRun` |
| ReportTool.ErrorReport | api.py:219-224 | the degraded report has the four fields; it is what every failed request returns (`Endpoint.Research`) |
| ReportTool.Bind | api.py:154-156 | a report that binds has exactly the four fields |
| ReportTool.BindRoundTrip | api.py:30-37 | binding gives back any four-field report unchanged, succeeds on nothing else, and the result is the argument object itself |
| Transcript.Initial | api.py:94-106 | no contract of its own; `AgentLoop.Agent` states that the first prompt of every request is this system message followed by the question |
| Dispatch.QueryOf | api.py:144 | no contract of its own; `Dispatch.Stop` and `Dispatch.TurnSearches` state that a search call without a subscriptable query raises and that the subscripted value is what gets recorded |
| Dispatch.ReportAnswer | api.py:155-159 | no contract of its own; `Dispatch.TurnOutcome` states that the report call's answer, the serialised report or the failure text, is the last of the turn |
| Dispatch.ProcessCalls | api.py:134-176 | a finished turn only extends the search record; any report it returns has the four fields; the only exception it raises is the unreadable search query |
| Dispatch.Continue | api.py:137-176 | a call that does not stop the turn puts its answer first and records its query; the turn then goes on with the rest |
| Dispatch.Stop | api.py:143-166 | a search call without a readable query raises; a report call is answered and ends the turn with whatever its arguments bind to |
| Dispatch.TurnOutcome | api.py:134-176 | with no stopping call the turn finishes without a report; otherwise the first stopping call raises, or ends the turn with its bound report and its answer last |
| Dispatch.TurnSearches | api.py:143-145 | the record grows by the queries of the handled search calls, in call order, whatever the provider answered |
| Dispatch.TurnAnswers | api.py:137-176 | the answers' call identifiers are those of the handled parsed calls, in order, followed by the report call's identifier; unparseable calls get no answer |
| Dispatch.AnswersOnlyToCalls | api.py:161-176 | a finished turn appends only tool messages, each answering one of the turn's calls |
| Dispatch.ReportCallEndsTurn | api.py:152-166 | the calls after a report call change nothing, whether or not the report bound |
| Dispatch.UnparseableSkipped | api.py:137-141 | removing a call whose arguments did not parse changes neither answers, record nor report |
| Dispatch.FailedSearchRecorded | api.py:143-150 | a search the provider fails still records its query, answers with the fallback text, and lets the turn go on |
| Dispatch.UnknownToolAnswered | api.py:168-176 | a call to an unknown tool is answered "Outil non disponible." and the turn goes on |
| AgentLoop.Loop | api.py:108-192 | from any iteration the loop makes at most the remaining number of model calls; the first prompt is the current transcript; a completed run extends the record and carries a four-field report; running out of the cap uses all remaining calls |
| AgentLoop.Agent | api.py:93-197 | a request makes between one and five model calls, starting from the system prompt and the question |
| AgentLoop.LoopContinues | api.py:131-179 | another model call happens only after a tool-call turn that finished without a report, resuming from the extended transcript and record |
| AgentLoop.FirstContinues | api.py:131-176 | the second prompt continues the first with the assistant message, then answers to its calls only |
| AgentLoop.TranscriptDiscipline | api.py:113-176 | between any two consecutive model calls, the assistant message with its calls is appended before the tool answers, and every answer carries an identifier of one of those calls |
| AgentLoop.ImplicitAnswerEndsRun | api.py:181-189 | a reply without tool calls ends the request with the text as the summary under the fixed title, empty key points and sources, and the earlier searches kept |
| AgentLoop.ReportEndsRun | api.py:152-179 | a report call that binds ends the request in its turn with the arguments verbatim and the turn's earlier queries, without calling the model again |
| AgentLoop.UnproductiveRunFails | api.py:110-192 | a model that only sends unproductive tool calls exhausts the cap and the request fails with no report after all five calls |
| AgentLoop.HandleTurn | api.py:134-176 | the imperative per-turn loop computes `ProcessCalls` |
| AgentLoop.RunAgent | api.py:93-197 | the imperative loop computes the outcome of `Agent` with exactly as many model calls |
| Endpoint.SubscriptErrorText | api.py:144 | the text of the exception from subscripting with "query" is the key error's `'query'` exactly when the value is an object, and a type error's text otherwise |
| Endpoint.ErrorText | api.py:214-217 | the error text of a failed request is never empty |
| Endpoint.Research | api.py:209-225 | the response always carries a four-field report; it has an error exactly when the agent failed; success passes through unchanged; failure gives the fixed report, no searches and the exception text |
| Endpoint.Respond | api.py:211-225 | no contract of its own; `Endpoint.Research` and `Endpoint.RespondSeparates` state how outcomes map to responses |
| Endpoint.RespondSeparates | api.py:211-225 | a response without an error comes from a success, and it determines that success |
| Scenarios.TwoSearchesThenReport | api.py:93-197 | two searches then a report call give both queries in order and the report verbatim after three model calls, whatever the provider does |
| Scenarios.MissingFieldExhaustsCap | api.py:152-192 | a report call missing `sources` never ends the request; after five calls the response is the degraded one with the no-report message |
| Scenarios.LlmFailureDegrades | api.py:117-127 | a failing model call is not retried, and the response carries the cause after the fixed prefix |

## Behaviour of the code worth noting

Each point is a fact about `api.py` that the model reproduces, where a
reader might expect otherwise:

- A report call whose arguments do not bind is answered with the failure
  text and still breaks out of the turn (api.py:152-166). The remaining
  calls of that reply are not handled.
- Parsed calls that follow a report call in the same reply, bound or not,
  never get an answering tool message (api.py:166). When the report did
  not bind, the model is called again with those calls still unanswered
  in the transcript (`Dispatch.TurnAnswers`, `Dispatch.ReportCallEndsTurn`).
- The degraded report's title is the French "Erreur" (api.py:220), and the
  no-report message is the French sentence of api.py:192.
- The search query is not validated or trimmed before the search
  (api.py:143-147).
- A search call with no readable `query` is not absorbed as an argument
  error. It raises at api.py:144 and fails the whole request.
- A call whose arguments do not parse gets no answering tool message
  (api.py:137-141), although the tool-call protocol expects every call
  identifier to be answered. The model states this as behaviour
  (`Dispatch.TurnAnswers`, `Dispatch.UnparseableSkipped`).
- The model is asked for one call per reply (`parallel_tool_calls=False`,
  api.py:123), but the loop handles every call a reply carries. The model
  allows any number.

## Left out

- I/O is not modelled: the clients of the language model and the search
  service, environment loading, the web framework, the static files and
  the `/` route. The model and the provider are oracle functions.
- Console logging (`print`) is not modelled: printing is assumed never to
  raise.
- Strings are modelled as sequences of Unicode scalar values. Strings that
  hold a lone surrogate (which `json.loads` produces from an escape such as
  `\ud800`) are not covered. Any `print` of such a string raises
  `UnicodeEncodeError`, which fails the request (for instance at api.py:126,
  140, 144, 149, 158 or 169); the model cannot express such a query, tool
  name, object key or model-call error text.
- The error path at api.py:129 is not modelled: a model response without
  choices raises an `IndexError` outside the `try`, whose text lacks the
  model-call prefix. `Reply` only has a failed call with that prefix, or a
  message.
- The model name, the tool descriptions sent to the model,
  `tool_choice`, `parallel_tool_calls` and `max_results=3` are not
  modelled: they only shape what the oracles return.
- JSON text is not parsed or printed: arguments arrive as either
  unparseable or a parsed value, and the serialised report in the tool
  answer is kept as the map it serialises.
- Only `json.JSONDecodeError` is caught at api.py:139. Every other
  exception `json.loads` can raise escapes the loop and fails the request,
  and none of them is modelled: a `TypeError` for argument text that is
  not a string, a `RecursionError` for deeply nested arguments, and a
  `ValueError` for an integer literal longer than the interpreter's digit
  limit (4300 digits in CPython 3.12). The model treats any such text as
  parsed, with unbounded integers.
- Search results are assumed to be records of three strings. A provider
  response of another shape, which would raise inside the caught block,
  is not modelled.
- The oracles are deterministic functions of their inputs. A real
  provider that answers the same request differently each time is covered
  only through the search ordinal and the growing transcript.
- Endpoint.Research: the web framework's rendering of the returned
  dictionary is not modelled. It rejects non-finite floats (`NaN`,
  `Infinity`, `-Infinity`, or a literal such as `1e999`), which `json.loads`
  accepts in tool-call arguments. Such a value can be a recorded query
  (api.py:145) or sit in the report (api.py:156), and the client then
  gets a server error with no report at all; the model's `Research` gives
  a success response for it.
- Endpoint.ErrorText: the type-error texts follow CPython 3.12's wording,
  which other interpreter versions phrase differently.
- The command-line script `main.py` is not part of this model.

=== FILE: agent_loop.dfy ===
/** The agent loop `run_agent` (api.py:93-197): at most five calls to the
    language model, each answered either by plain text (an implicit report),
    by tool calls handled in order, or by an exception. */
module AgentLoop {
  import opened Wrappers
  import Json
  import opened Transcript
  import SearchTool
  import ReportTool
  import opened Dispatch

  /** The cap on calls to the language model. */
  const MaxIterations: nat := 5

  /** The end of a request: a report with the queries searched, or a
      failure. */
  datatype Outcome =
    | Completed(searches: seq<Json.Value>, report: map<string, Json.Value>)
    | Failed(failure: Failure)

  /** A request's outcome together with the transcripts sent to the language
      model, one per call, in order. */
  datatype Run = Run(outcome: Outcome, prompts: seq<seq<Message>>)

  /** The loop from the point where `iteration` model calls have been made
      and the report is still missing. */
  function Loop(iteration: nat, transcript: seq<Message>, searches: seq<Json.Value>,
                llm: Llm, provider: SearchTool.Provider): (run: Run)
    requires iteration <= MaxIterations
    ensures |run.prompts| <= MaxIterations - iteration
    ensures iteration < MaxIterations ==> |run.prompts| > 0 && run.prompts[0] == transcript
    ensures run.outcome.Completed? ==>
              searches <= run.outcome.searches && ReportTool.IsReport(run.outcome.report)
    ensures run.outcome == Failed(NoReport) ==> |run.prompts| == MaxIterations - iteration
    decreases MaxIterations - iteration
  {
    if iteration == MaxIterations then Run(Failed(NoReport), [])
    else
      match llm(transcript)
      case Raised(cause) => Run(Failed(LlmCallFailed(cause)), [transcript])
      case Completion(content, calls) =>
        if |calls| == 0 then Run(Completed(searches, ReportTool.Implicit(content)), [transcript])
        else
          match ProcessCalls(calls, searches, provider)
          case Aborted(failure) => Run(Failed(failure), [transcript])
          case Finished(answers, recorded, report) =>
            if report.Some? then Run(Completed(recorded, report.value), [transcript])
            else
              var next := transcript + [Assistant(content, calls)] + answers;
              var later := Loop(iteration + 1, next, recorded, llm, provider);
              Run(later.outcome, [transcript] + later.prompts)
  }

  /** A whole request for the given question. */
  function Agent(question: string, llm: Llm, provider: SearchTool.Provider): (run: Run)
    ensures 1 <= |run.prompts| <= MaxIterations
    ensures run.prompts[0] == Initial(question)
    ensures run.outcome.Completed? ==> ReportTool.IsReport(run.outcome.report)
    ensures run.outcome == Failed(NoReport) ==> |run.prompts| == MaxIterations
  {
    Loop(0, Initial(question), [], llm, provider)
  }

  /** The transcript sent on the next model call continues the previous one
      with the assistant message that carried tool calls, followed only by
      tool answers to those calls. */
  predicate Continues(prompt: seq<Message>, reply: Reply, next: seq<Message>) {
    && reply.Completion? && |reply.calls| > 0
    && prompt + [Assistant(reply.content, reply.calls)] <= next
    && AnswersTo(next[|prompt| + 1..], reply.calls)
  }

  /** The loop makes another model call only after a tool-call turn that
      finished without a report; the later calls are those of the loop
      resumed from that turn. */
  lemma LoopContinues(iteration: nat, transcript: seq<Message>, searches: seq<Json.Value>,
                      llm: Llm, provider: SearchTool.Provider)
    requires iteration <= MaxIterations
    requires |Loop(iteration, transcript, searches, llm, provider).prompts| > 1
    ensures var reply := llm(transcript);
            && reply.Completion? && |reply.calls| > 0
            && var turn := ProcessCalls(reply.calls, searches, provider);
               var next := transcript + [Assistant(reply.content, reply.calls)] + turn.answers;
               && turn.Finished? && turn.report.None? && iteration + 1 < MaxIterations
               && Loop(iteration, transcript, searches, llm, provider).prompts
                  == [transcript] + Loop(iteration + 1, next, turn.searches, llm, provider).prompts
  {
  }

  /** The first two transcripts of a run with more than one model call are
      related as the loop promises. */
  lemma FirstContinues(iteration: nat, transcript: seq<Message>, searches: seq<Json.Value>,
                       llm: Llm, provider: SearchTool.Provider)
    requires iteration <= MaxIterations
    requires |Loop(iteration, transcript, searches, llm, provider).prompts| > 1
    ensures var prompts := Loop(iteration, transcript, searches, llm, provider).prompts;
            Continues(prompts[0], llm(prompts[0]), prompts[1])
  {
    LoopContinues(iteration, transcript, searches, llm, provider);
    var reply := llm(transcript);
    var turn := ProcessCalls(reply.calls, searches, provider);
    var next := transcript + [Assistant(reply.content, reply.calls)] + turn.answers;
    AnswersOnlyToCalls(reply.calls, searches, provider);
    assert next[|transcript| + 1..] == turn.answers;
  }

  /** Between two model calls the transcript only grows, by the assistant
      message first and then by tool messages each carrying the identifier
      of one of its calls; a new call happens only after a tool-call reply. */
  lemma {:induction false} TranscriptDiscipline(iteration: nat, transcript: seq<Message>,
                                                searches: seq<Json.Value>, llm: Llm,
                                                provider: SearchTool.Provider)
    requires iteration <= MaxIterations
    ensures var run := Loop(iteration, transcript, searches, llm, provider);
            forall i | 0 <= i < |run.prompts| - 1 ::
              Continues(run.prompts[i], llm(run.prompts[i]), run.prompts[i + 1])
    decreases MaxIterations - iteration
  {
    var prompts := Loop(iteration, transcript, searches, llm, provider).prompts;
    if |prompts| > 1 {
      LoopContinues(iteration, transcript, searches, llm, provider);
      FirstContinues(iteration, transcript, searches, llm, provider);
      var reply := llm(transcript);
      var turn := ProcessCalls(reply.calls, searches, provider);
      var next := transcript + [Assistant(reply.content, reply.calls)] + turn.answers;
      var later := Loop(iteration + 1, next, turn.searches, llm, provider).prompts;
      TranscriptDiscipline(iteration + 1, next, turn.searches, llm, provider);
      forall i | 1 <= i < |prompts| - 1
        ensures Continues(prompts[i], llm(prompts[i]), prompts[i + 1])
      {
        assert prompts[i] == later[i - 1] && prompts[i + 1] == later[i];
      }
    }
  }

  /** A reply without tool calls ends the request at once with the implicit
      report: the message text as its summary, under the fixed title, with
      no key points and no sources, and with every query searched so far. */
  lemma ImplicitAnswerEndsRun(iteration: nat, transcript: seq<Message>, searches: seq<Json.Value>,
                              llm: Llm, provider: SearchTool.Provider)
    requires iteration < MaxIterations
    requires llm(transcript).Completion? && |llm(transcript).calls| == 0
    ensures var run := Loop(iteration, transcript, searches, llm, provider);
            var report := ReportTool.Implicit(llm(transcript).content);
            && run == Run(Completed(searches, report), [transcript])
            && report["title"] == Json.Str(ReportTool.ImplicitTitle)
            && report["summary"] == (match llm(transcript).content
                                     case Some(text) => Json.Str(text)
                                     case None => Json.Null)
            && report["key_points"] == Json.Array([]) && report["sources"] == Json.Array([])
  {
  }

  /** A report call whose arguments bind ends the request in the same turn:
      the report is the call's arguments verbatim, the record holds the
      queries of the earlier calls of the turn, and the model is not called
      again. */
  lemma ReportEndsRun(iteration: nat, transcript: seq<Message>, searches: seq<Json.Value>,
                      llm: Llm, provider: SearchTool.Provider)
    requires iteration < MaxIterations
    requires llm(transcript).Completion?
    requires var calls := llm(transcript).calls;
             var h := Handled(calls);
             |h| < |calls| && Ends(calls[|h|]) && ReportTool.Bind(calls[|h|].args.value).Some?
    ensures var run := Loop(iteration, transcript, searches, llm, provider);
            var calls := llm(transcript).calls;
            var h := Handled(calls);
            && |run.prompts| == 1
            && run.outcome == Completed(searches + Queries(h), calls[|h|].args.value.fields)
  {
    var reply := llm(transcript);
    TurnOutcome(reply.calls, searches, provider);
    TurnSearches(reply.calls, searches, provider);
  }

  /** A tool-call reply is unproductive when none of its calls raises and
      every report call among them fails to bind. */
  predicate Unproductive(reply: Reply) {
    && reply.Completion? && |reply.calls| > 0
    && forall i | 0 <= i < |reply.calls| ::
         && !Aborts(reply.calls[i])
         && (Ends(reply.calls[i]) ==> ReportTool.Bind(reply.calls[i].args.value).None?)
  }

  /** A model that only ever answers with unproductive tool calls, such as
      a report call missing a field, exhausts the cap: the request fails
      with no report after exactly as many model calls as remain. */
  lemma {:induction false} UnproductiveRunFails(iteration: nat, transcript: seq<Message>,
                                                searches: seq<Json.Value>, llm: Llm,
                                                provider: SearchTool.Provider)
    requires iteration <= MaxIterations
    requires forall p :: Unproductive(llm(p))
    ensures var run := Loop(iteration, transcript, searches, llm, provider);
            run.outcome == Failed(NoReport) && |run.prompts| == MaxIterations - iteration
    decreases MaxIterations - iteration
  {
    if iteration < MaxIterations {
      var reply := llm(transcript);
      assert Unproductive(reply);
      TurnOutcome(reply.calls, searches, provider);
      var turn := ProcessCalls(reply.calls, searches, provider);
      var next := transcript + [Assistant(reply.content, reply.calls)] + turn.answers;
      UnproductiveRunFails(iteration + 1, next, turn.searches, llm, provider);
    }
  }

  /** The per-turn loop as written (api.py:134-176): calls are taken in
      order, an unparseable one is skipped with `continue`, a search call
      records its query before searching, and a report call answers and
      breaks. It computes `ProcessCalls`. */
  method HandleTurn(calls: seq<ToolCall>, searches: seq<Json.Value>, provider: SearchTool.Provider)
    returns (result: TurnResult)
    ensures result == ProcessCalls(calls, searches, provider)
  {
    var answers: seq<Message> := [];
    var searchesDone := searches;
    var i := 0;
    while i < |calls|
      invariant 0 <= i <= |calls|
      invariant ProcessCalls(calls, searches, provider)
                == Prepend(answers, ProcessCalls(calls[i..], searchesDone, provider))
    {
      var call := calls[i];
      ghost var before, recordedBefore := answers, searchesDone;
      if Stops(call) {
        Halt(calls, i, answers, searchesDone, provider);
      } else {
        Advance(calls, i, answers, searchesDone, provider);
      }
      if call.args.Unparseable? {
        assert answers == before + AnswerOf(call, recordedBefore, provider);
        assert searchesDone == recordedBefore + Recorded(call);
        i := i + 1;
        continue;
      }
      var toolArgs := call.args.value;
      if call.name == SearchToolName {
        var query := QueryOf(toolArgs);
        if query.None? {
          return Aborted(SearchArgsUnreadable(toolArgs));
        }
        searchesDone := searchesDone + [query.value];
        var text := SearchTool.SearchWeb(toolArgs, provider, |searchesDone| - 1);
        answers := answers + [Tool(call.id, Text(text))];
      } else if call.name == ReportToolName {
        var finalReport := ReportTool.Bind(toolArgs);
        answers := answers + [Tool(call.id, ReportAnswer(finalReport))];
        return Finished(answers, searchesDone, finalReport);
      } else {
        answers := answers + [Tool(call.id, Text(UnavailableText))];
      }
      assert answers == before + AnswerOf(call, recordedBefore, provider);
      assert searchesDone == recordedBefore + Recorded(call);
      i := i + 1;
    }
    assert answers + [] == answers;
    return Finished(answers, searchesDone, None);
  }

  /** The loop as written: a counter incremented before each model call,
      the per-turn loop, a stop as soon as a report exists, and the failure
      raised when none exists after the cap. It computes the outcome of
      `Agent` and makes as many model calls. */
  method RunAgent(question: string, llm: Llm, provider: SearchTool.Provider)
    returns (outcome: Outcome, llmCalls: nat)
    ensures outcome == Agent(question, llm, provider).outcome
    ensures llmCalls == |Agent(question, llm, provider).prompts|
  {
    ghost var run := Agent(question, llm, provider);
    var messages := Initial(question);
    var searchesDone: seq<Json.Value> := [];
    var finalReport: Option<map<string, Json.Value>> := None;
    var iteration: nat := 0;
    while iteration < MaxIterations
      invariant iteration <= MaxIterations
      invariant finalReport.None?
      invariant Loop(iteration, messages, searchesDone, llm, provider).outcome == run.outcome
      invariant iteration + |Loop(iteration, messages, searchesDone, llm, provider).prompts|
                == |run.prompts|
    {
      ghost var prompt := messages;
      ghost var here := Loop(iteration, messages, searchesDone, llm, provider);
      iteration := iteration + 1;
      var reply := llm(messages);
      if reply.Raised? {
        return Failed(LlmCallFailed(reply.cause)), iteration;
      }
      if |reply.calls| == 0 {
        finalReport := Some(ReportTool.Implicit(reply.content));
        break;
      }
      messages := messages + [Assistant(reply.content, reply.calls)];
      var turn := HandleTurn(reply.calls, searchesDone, provider);
      if turn.Aborted? {
        return Failed(turn.failure), iteration;
      }
      messages, searchesDone, finalReport := messages + turn.answers, turn.searches, turn.report;
      if finalReport.Some? {
        assert here == Run(Completed(searchesDone, finalReport.value), [prompt]);
        break;
      }
      assert here.prompts == [prompt] + Loop(iteration, messages, searchesDone, llm, provider).prompts;
    }
    if finalReport.None? {
      return Failed(NoReport), iteration;
    }
    return Completed(searchesDone, finalReport.value), iteration;
  }
}

=== FILE: dispatch.dfy ===
/** One tool-call turn of the agent loop (api.py:131-179): the calls of an
    assistant message are handled in order until the list is exhausted, a
    report call ends the turn, or a search call without a readable query
    raises out of the loop. Each call whose arguments parsed is answered by a
    tool message carrying its identifier, up to and including the first
    report call; a call whose arguments did not parse, and every call after
    the turn stops, gets no answer. */
module Dispatch {
  import opened Wrappers
  import Json
  import opened Transcript
  import SearchTool
  import ReportTool

  const SearchToolName: string := "search_web"
  const ReportToolName: string := "generate_report"
  const UnavailableText: string := "Outil non disponible."

  /** Why a request fails: the model call raised, a search call's arguments
      could not be subscripted with "query", or no report was produced
      within the iteration cap. */
  datatype Failure =
    | LlmCallFailed(cause: string)
    | SearchArgsUnreadable(args: Json.Value)
    | NoReport

  /** The end of a turn: either an exception escaped the loop, or the turn
      finished with the tool messages it appended, the extended search
      record and, if a report call bound its arguments, the report. */
  datatype TurnResult =
    | Aborted(failure: Failure)
    | Finished(answers: seq<Message>, searches: seq<Json.Value>,
               report: Option<map<string, Json.Value>>)

  /** Subscripting the parsed arguments with "query": only an object that
      has the key yields a value; a missing key or a value of another type
      raises. */
  function QueryOf(args: Json.Value): Option<Json.Value> {
    if args.Object? && "query" in args.fields then Some(args.fields["query"]) else None
  }

  /** The tool answer to a report call: the serialised report, or the
      failure text when the arguments did not bind. */
  function ReportAnswer(report: Option<map<string, Json.Value>>): ToolContent {
    match report
    case Some(fields) => ReportDump(fields)
    case None => Text(ReportTool.FailureText)
  }

  /** Puts the answers of earlier calls in front of those of a later part
      of the turn; an exception raised later escapes unchanged. */
  function Prepend(answers: seq<Message>, r: TurnResult): TurnResult {
    match r
    case Aborted(_) => r
    case Finished(later, searches, report) => Finished(answers + later, searches, report)
  }

  /** Handles the calls of one turn in order; `searches` is the record of
      queries made so far in the request. */
  function ProcessCalls(calls: seq<ToolCall>, searches: seq<Json.Value>,
                        provider: SearchTool.Provider): (r: TurnResult)
    ensures r.Finished? ==> searches <= r.searches
    ensures r.Finished? && r.report.Some? ==> ReportTool.IsReport(r.report.value)
    ensures r.Aborted? ==> r.failure.SearchArgsUnreadable?
    decreases |calls|
  {
    if |calls| == 0 then Finished([], searches, None)
    else
      var call, rest := calls[0], calls[1..];
      match call.args
      case Unparseable => ProcessCalls(rest, searches, provider)
      case Parsed(args) =>
        if call.name == SearchToolName then
          match QueryOf(args)
          case None => Aborted(SearchArgsUnreadable(args))
          case Some(query) =>
            var text := SearchTool.SearchWeb(args, provider, |searches|);
            Prepend([Tool(call.id, Text(text))], ProcessCalls(rest, searches + [query], provider))
        else if call.name == ReportToolName then
          var report := ReportTool.Bind(args);
          Finished([Tool(call.id, ReportAnswer(report))], searches, report)
        else
          Prepend([Tool(call.id, Text(UnavailableText))], ProcessCalls(rest, searches, provider))
  }

  /** A report call whose arguments parsed: it ends the turn. */
  predicate Ends(c: ToolCall) {
    c.args.Parsed? && c.name == ReportToolName
  }

  /** A search call whose parsed arguments have no readable query: it
      raises out of the loop. */
  predicate Aborts(c: ToolCall) {
    c.args.Parsed? && c.name == SearchToolName && QueryOf(c.args.value).None?
  }

  predicate Stops(c: ToolCall) {
    Ends(c) || Aborts(c)
  }

  /** The calls handled before the turn stops: the longest prefix without a
      stopping call. */
  function Handled(calls: seq<ToolCall>): (h: seq<ToolCall>)
    ensures h <= calls
    ensures forall i | 0 <= i < |h| :: !Stops(h[i])
    ensures |h| < |calls| ==> Stops(calls[|h|])
  {
    if |calls| == 0 || Stops(calls[0]) then [] else [calls[0]] + Handled(calls[1..])
  }

  /** The calls whose arguments parsed, in order. */
  function ParsedCalls(calls: seq<ToolCall>): seq<ToolCall> {
    if |calls| == 0 then []
    else (if calls[0].args.Parsed? then [calls[0]] else []) + ParsedCalls(calls[1..])
  }

  /** The query a call records: the query of a search call that has one,
      nothing for any other call. */
  function Recorded(c: ToolCall): seq<Json.Value> {
    if c.args.Parsed? && c.name == SearchToolName && QueryOf(c.args.value).Some?
    then [QueryOf(c.args.value).value] else []
  }

  /** The queries of the search calls that have one, in order. */
  function Queries(calls: seq<ToolCall>): seq<Json.Value> {
    if |calls| == 0 then [] else Recorded(calls[0]) + Queries(calls[1..])
  }

  /** The answer a call that does not stop the turn receives: none when its
      arguments did not parse, the search text for a search, the
      unavailability text for an unknown tool. */
  function AnswerOf(c: ToolCall, searches: seq<Json.Value>, provider: SearchTool.Provider): (answer: seq<Message>)
    ensures |answer| == (if c.args.Parsed? then 1 else 0)
    ensures forall k | 0 <= k < |answer| :: answer[k].Tool? && answer[k].callId == c.id
  {
    if c.args.Unparseable? then []
    else if c.name == SearchToolName
    then [Tool(c.id, Text(SearchTool.SearchWeb(c.args.value, provider, |searches|)))]
    else [Tool(c.id, Text(UnavailableText))]
  }

  lemma PrependTwice(a: seq<Message>, b: seq<Message>, r: TurnResult)
    ensures Prepend(a, Prepend(b, r)) == Prepend(a + b, r)
  {
    if r.Finished? {
      assert a + (b + r.answers) == a + b + r.answers;
      assert Prepend(b, r) == Finished(b + r.answers, r.searches, r.report);
    }
  }

  /** One call that does not stop the turn: its answer comes first, its
      query is recorded, and the turn goes on with the next call. */
  lemma Continue(calls: seq<ToolCall>, s: seq<Json.Value>, provider: SearchTool.Provider)
    requires |calls| > 0 && !Stops(calls[0])
    ensures ProcessCalls(calls, s, provider)
            == Prepend(AnswerOf(calls[0], s, provider),
                       ProcessCalls(calls[1..], s + Recorded(calls[0]), provider))
  {
    var c := calls[0];
    if c.args.Unparseable? || c.name != SearchToolName {
      assert s + Recorded(c) == s;
    }
    if c.args.Unparseable? {
      var r := ProcessCalls(calls[1..], s, provider);
      assert r.Finished? ==> [] + r.answers == r.answers;
      assert Prepend([], r) == r;
    }
  }

  /** The call that stops a turn is the last one handled: a search call
      without a query raises, and a report call answers and ends the turn
      with whatever its arguments bind to. */
  lemma Stop(calls: seq<ToolCall>, s: seq<Json.Value>, provider: SearchTool.Provider)
    requires |calls| > 0 && Stops(calls[0])
    ensures var r := ProcessCalls(calls, s, provider);
            var report := ReportTool.Bind(calls[0].args.value);
            && (Aborts(calls[0]) ==> r == Aborted(SearchArgsUnreadable(calls[0].args.value)))
            && (Ends(calls[0]) ==> r == Finished([Tool(calls[0].id, ReportAnswer(report))], s, report))
  {
  }

  /** Handling a call that does not stop the turn moves the boundary of the
      handled prefix by one call. */
  lemma HandledStep(calls: seq<ToolCall>)
    requires |calls| > 0 && !Stops(calls[0])
    ensures var h, h' := Handled(calls), Handled(calls[1..]);
            && |h| == |h'| + 1
            && ParsedCalls(h) == (if calls[0].args.Parsed? then [calls[0]] else []) + ParsedCalls(h')
            && Queries(h) == Recorded(calls[0]) + Queries(h')
            && (|h| < |calls| <==> |h'| < |calls[1..]|)
            && (|h| < |calls| ==> calls[|h|] == calls[1..][|h'|])
  {
    var h, h' := Handled(calls), Handled(calls[1..]);
    assert h == [calls[0]] + h';
    assert h[0] == calls[0] && h[1..] == h';
  }

  /** From the point reached after the first `i` calls: a call that does
      not stop the turn adds its answer to those gathered so far. */
  lemma Advance(calls: seq<ToolCall>, i: nat, answers: seq<Message>, s: seq<Json.Value>,
                provider: SearchTool.Provider)
    requires i < |calls| && !Stops(calls[i])
    ensures Prepend(answers, ProcessCalls(calls[i..], s, provider))
            == Prepend(answers + AnswerOf(calls[i], s, provider),
                       ProcessCalls(calls[i + 1..], s + Recorded(calls[i]), provider))
  {
    assert calls[i..][0] == calls[i] && calls[i..][1..] == calls[i + 1..];
    Continue(calls[i..], s, provider);
    PrependTwice(answers, AnswerOf(calls[i], s, provider),
                 ProcessCalls(calls[i + 1..], s + Recorded(calls[i]), provider));
  }

  /** From the point reached after the first `i` calls: a stopping call
      ends the turn with the answers gathered so far plus its own, or
      raises. */
  lemma Halt(calls: seq<ToolCall>, i: nat, answers: seq<Message>, s: seq<Json.Value>,
             provider: SearchTool.Provider)
    requires i < |calls| && Stops(calls[i])
    ensures var c := calls[i];
            var r := Prepend(answers, ProcessCalls(calls[i..], s, provider));
            var report := ReportTool.Bind(c.args.value);
            && (Aborts(c) ==> r == Aborted(SearchArgsUnreadable(c.args.value)))
            && (Ends(c) ==> r == Finished(answers + [Tool(c.id, ReportAnswer(report))], s, report))
  {
    assert calls[i..][0] == calls[i];
    Stop(calls[i..], s, provider);
  }

  lemma CallIdsConcat(a: seq<ToolCall>, b: seq<ToolCall>)
    ensures CallIds(a + b) == CallIds(a) + CallIds(b)
  {
    assert forall i | 0 <= i < |a + b| :: CallIds(a + b)[i] == (CallIds(a) + CallIds(b))[i];
  }

  lemma {:induction false} AnsweredIdsConcat(a: seq<Message>, b: seq<Message>)
    ensures AnsweredIds(a + b) == AnsweredIds(a) + AnsweredIds(b)
    decreases |a|
  {
    if |a| > 0 {
      assert (a + b)[0] == a[0] && (a + b)[1..] == a[1..] + b;
      AnsweredIdsConcat(a[1..], b);
    } else {
      assert a + b == b;
    }
  }

  /** How a turn ends. With no stopping call it finishes without a report;
      at the first stopping call it either raises or finishes with exactly
      the report the call's arguments bind to (None when they do not), the
      last answer being that call's. */
  lemma {:induction false} TurnOutcome(calls: seq<ToolCall>, s: seq<Json.Value>,
                                       provider: SearchTool.Provider)
    ensures var r := ProcessCalls(calls, s, provider);
            var h := Handled(calls);
            && (|h| == |calls| ==> r.Finished? && r.report.None?)
            && (|h| < |calls| && Aborts(calls[|h|]) ==>
                  r == Aborted(SearchArgsUnreadable(calls[|h|].args.value)))
            && (|h| < |calls| && Ends(calls[|h|]) ==>
                  && r.Finished?
                  && r.report == ReportTool.Bind(calls[|h|].args.value)
                  && |r.answers| > 0
                  && r.answers[|r.answers| - 1] == Tool(calls[|h|].id, ReportAnswer(r.report)))
    decreases |calls|
  {
    if |calls| > 0 {
      if Stops(calls[0]) {
        assert Handled(calls) == [];
        Stop(calls, s, provider);
      } else {
        var answer := AnswerOf(calls[0], s, provider);
        HandledStep(calls);
        Continue(calls, s, provider);
        TurnOutcome(calls[1..], s + Recorded(calls[0]), provider);
        var later := ProcessCalls(calls[1..], s + Recorded(calls[0]), provider);
        if later.Finished? && |later.answers| > 0 {
          assert (answer + later.answers)[|answer + later.answers| - 1]
                 == later.answers[|later.answers| - 1];
        }
      }
    }
  }

  /** What a finished turn records: the search record grows by the queries
      of the handled search calls, in call order, whatever the provider
      answered. */
  lemma {:induction false} TurnSearches(calls: seq<ToolCall>, s: seq<Json.Value>,
                                        provider: SearchTool.Provider)
    ensures var r := ProcessCalls(calls, s, provider);
            r.Finished? ==> r.searches == s + Queries(Handled(calls))
    decreases |calls|
  {
    if |calls| > 0 {
      if Stops(calls[0]) {
        Stop(calls, s, provider);
      } else {
        HandledStep(calls);
        Continue(calls, s, provider);
        TurnSearches(calls[1..], s + Recorded(calls[0]), provider);
      }
    }
  }

  /** What a finished turn answers: its messages answer, in order, each
      handled call whose arguments parsed, then the report call that ended
      the turn, if any. Calls whose arguments did not parse are not
      answered. */
  lemma {:induction false} TurnAnswers(calls: seq<ToolCall>, s: seq<Json.Value>,
                                       provider: SearchTool.Provider)
    ensures var r := ProcessCalls(calls, s, provider);
            var h := Handled(calls);
            r.Finished? ==>
              AnsweredIds(r.answers)
              == CallIds(ParsedCalls(h)) + (if |h| < |calls| then [calls[|h|].id] else [])
    decreases |calls|
  {
    if |calls| > 0 {
      var c := calls[0];
      if Stops(c) {
        Stop(calls, s, provider);
        assert Handled(calls) == [];
      } else {
        var answer := AnswerOf(c, s, provider);
        var later := ProcessCalls(calls[1..], s + Recorded(c), provider);
        var h' := Handled(calls[1..]);
        HandledStep(calls);
        Continue(calls, s, provider);
        TurnAnswers(calls[1..], s + Recorded(c), provider);
        if later.Finished? {
          AnsweredIdsConcat(answer, later.answers);
          var mine := if c.args.Parsed? then [c] else [];
          CallIdsConcat(mine, ParsedCalls(h'));
          assert AnsweredIds(answer) == CallIds(mine);
        }
      }
    }
  }

  /** A finished turn appends nothing but tool answers, each carrying the
      identifier of one of the turn's calls. */
  lemma {:induction false} AnswersOnlyToCalls(calls: seq<ToolCall>, s: seq<Json.Value>,
                                              provider: SearchTool.Provider)
    ensures var r := ProcessCalls(calls, s, provider);
            r.Finished? ==> AnswersTo(r.answers, calls)
    decreases |calls|
  {
    if |calls| > 0 {
      if Stops(calls[0]) {
        Stop(calls, s, provider);
      } else {
        var answer := AnswerOf(calls[0], s, provider);
        var later := ProcessCalls(calls[1..], s + Recorded(calls[0]), provider);
        Continue(calls, s, provider);
        AnswersOnlyToCalls(calls[1..], s + Recorded(calls[0]), provider);
        if later.Finished? {
          var all := answer + later.answers;
          forall k | 0 <= k < |all|
            ensures all[k].Tool? && all[k].callId in CallIds(calls)
          {
            if k >= |answer| {
              assert all[k] == later.answers[k - |answer|];
            }
          }
        }
      }
    }
  }

  /** Nothing after a report call matters: the turn ends there whether or
      not the call's arguments bound. */
  lemma {:induction false} ReportCallEndsTurn(pre: seq<ToolCall>, c: ToolCall, post: seq<ToolCall>,
                                              s: seq<Json.Value>, provider: SearchTool.Provider)
    requires Ends(c)
    ensures ProcessCalls(pre + [c] + post, s, provider) == ProcessCalls(pre + [c], s, provider)
    decreases |pre|
  {
    var all, cut := pre + [c] + post, pre + [c];
    if |pre| == 0 {
      assert all[0] == c && cut[0] == c;
    } else if !Stops(pre[0]) {
      assert all[0] == cut[0] == pre[0];
      assert all[1..] == pre[1..] + [c] + post;
      assert cut[1..] == pre[1..] + [c];
      Continue(all, s, provider);
      Continue(cut, s, provider);
      ReportCallEndsTurn(pre[1..], c, post, s + Recorded(pre[0]), provider);
    } else {
      assert all[0] == cut[0] == pre[0];
      Stop(all, s, provider);
      Stop(cut, s, provider);
    }
  }

  /** A call whose arguments did not parse is skipped: removing it changes
      nothing, neither the answers, nor the search record, nor the report. */
  lemma {:induction false} UnparseableSkipped(pre: seq<ToolCall>, c: ToolCall, post: seq<ToolCall>,
                                              s: seq<Json.Value>, provider: SearchTool.Provider)
    requires c.args.Unparseable?
    ensures ProcessCalls(pre + [c] + post, s, provider) == ProcessCalls(pre + post, s, provider)
    decreases |pre|
  {
    var all, cut := pre + [c] + post, pre + post;
    if |pre| == 0 {
      assert all[0] == c && all[1..] == post == cut;
    } else if !Stops(pre[0]) {
      assert all[0] == cut[0] == pre[0];
      assert all[1..] == pre[1..] + [c] + post;
      assert cut[1..] == pre[1..] + post;
      Continue(all, s, provider);
      Continue(cut, s, provider);
      UnparseableSkipped(pre[1..], c, post, s + Recorded(pre[0]), provider);
    } else {
      assert all[0] == cut[0] == pre[0];
      Stop(all, s, provider);
      Stop(cut, s, provider);
    }
  }

  /** A search whose provider call fails still records its query, answers
      its call with the fallback text, and lets the turn go on. */
  lemma FailedSearchRecorded(c: ToolCall, rest: seq<ToolCall>, s: seq<Json.Value>,
                             provider: SearchTool.Provider)
    requires c.args.Parsed? && c.name == SearchToolName && QueryOf(c.args.value).Some?
    requires provider(|s|, QueryOf(c.args.value).value) == SearchTool.ProviderError
    ensures ProcessCalls([c] + rest, s, provider)
            == Prepend([Tool(c.id, Text(SearchTool.FallbackText))],
                       ProcessCalls(rest, s + [QueryOf(c.args.value).value], provider))
  {
    assert ([c] + rest)[1..] == rest;
  }

  /** A call to a tool that does not exist is answered with the
      unavailability text and the turn goes on with the next call. */
  lemma UnknownToolAnswered(c: ToolCall, rest: seq<ToolCall>, s: seq<Json.Value>,
                            provider: SearchTool.Provider)
    requires c.args.Parsed? && c.name != SearchToolName && c.name != ReportToolName
    ensures ProcessCalls([c] + rest, s, provider)
            == Prepend([Tool(c.id, Text(UnavailableText))], ProcessCalls(rest, s, provider))
  {
    assert ([c] + rest)[1..] == rest;
  }
}

=== FILE: endpoint.dfy ===
/** The `/research` endpoint (api.py:209-225): the request's outcome becomes
    the response, and every failure becomes the same degraded response
    carrying the text of the exception. */
module Endpoint {
  import opened Wrappers
  import Json
  import opened Transcript
  import SearchTool
  import ReportTool
  import opened Dispatch
  import opened AgentLoop

  /** The response body: `error` is present only on the degraded shape. */
  datatype Response = Response(error: Option<string>, searches: seq<Json.Value>,
                               report: map<string, Json.Value>)

  const LlmErrorPrefix: string := "Erreur lors de l'appel au LLM : "
  const NoReportText: string := "L'agent n'a pas pu générer de rapport après 5 itérations."

  /** The text of the exception raised by subscripting the parsed value with
      "query", as the interpreter words it: a key error naming the key for an
      object, a type error for any other value. */
  function SubscriptErrorText(args: Json.Value): (text: string)
    ensures text == "'query'" <==> args.Object?
  {
    match args
    case Object(_) => "'query'"
    case Array(_) => "list indices must be integers or slices, not str"
    case Str(_) => "string indices must be integers, not 'str'"
    case Null => "'NoneType' object is not subscriptable"
    case Bool(_) => "'bool' object is not subscriptable"
    case Int(_) => "'int' object is not subscriptable"
    case Float(_) => "'float' object is not subscriptable"
  }

  /** The text of the exception that ended a failed request. */
  function ErrorText(failure: Failure): (text: string)
    ensures |text| > 0
  {
    match failure
    case LlmCallFailed(cause) => LlmErrorPrefix + cause
    case SearchArgsUnreadable(args) => SubscriptErrorText(args)
    case NoReport => NoReportText
  }

  /** The endpoint's mapping of an outcome to a response. */
  function Respond(outcome: Outcome): Response {
    match outcome
    case Completed(searches, report) => Response(None, searches, report)
    case Failed(failure) => Response(Some(ErrorText(failure)), [], ReportTool.ErrorReport())
  }

  /** A request end to end: the handler never raises, returns a report of
      the four fields, reports an error exactly when the agent failed, passes
      a completed outcome through unchanged, and answers every failure with
      the fixed degraded report, no searches and a non-empty error text. */
  function Research(question: string, llm: Llm, provider: SearchTool.Provider): (response: Response)
    ensures var outcome := Agent(question, llm, provider).outcome;
            && ReportTool.IsReport(response.report)
            && (response.error.None? <==> outcome.Completed?)
            && (outcome.Completed? ==>
                  response.searches == outcome.searches && response.report == outcome.report)
            && (outcome.Failed? ==>
                  && response.searches == []
                  && response.report == ReportTool.ErrorReport()
                  && response.error == Some(ErrorText(outcome.failure))
                  && |response.error.value| > 0)
  {
    Respond(Agent(question, llm, provider).outcome)
  }

  /** A success response determines the outcome it came from, and no
      failure produces a response without an error. */
  lemma RespondSeparates(o1: Outcome, o2: Outcome)
    ensures Respond(o1).error.None? ==> o1.Completed?
    ensures Respond(o1) == Respond(o2) && o1.Completed? ==> o1 == o2
  {
  }
}

=== FILE: json.dfy ===
/** JSON values as produced by parsing the argument text of a tool call.
    Parsing itself is not modelled: a tool call carries either the parsed
    value or the fact that parsing failed. */
module Json {

  /** An object is a map because the parser keeps only the last binding of a
      key that occurs twice; an integer literal and a literal with a fraction
      or exponent become different Python types, hence `Int` and `Float`. */
  datatype Value =
    | Null
    | Bool(b: bool)
    | Int(i: int)
    | Float(repr: string)
    | Str(s: string)
    | Array(items: seq<Value>)
    | Object(fields: map<string, Value>)
}

=== FILE: report_tool.dfy ===
/** The `generate_report` tool (api.py:30-37) and the three reports a
    request can end with: the one the model builds through the tool, the
    implicit one built from a plain-text answer (api.py:181-188), and the
    fixed one returned on failure (api.py:219-224). */
module ReportTool {
  import opened Wrappers
  import Json

  /** The parameter names of the tool, which are also the keys of every
      report. */
  const Params: set<string> := {"title", "summary", "key_points", "sources"}

  const FailureText: string := "Erreur lors de la génération du rapport."
  const ImplicitTitle: string := "Résultat de recherche"
  const ErrorTitle: string := "Erreur"
  const ErrorSummary: string :=
    "Une erreur s'est produite lors de la recherche. Réessaie dans quelques instants."

  /** A report has exactly the four fields, whatever their values: the tool
      does not check the types of its arguments. */
  predicate IsReport(r: map<string, Json.Value>) {
    r.Keys == Params
  }

  /** Calling the tool with keyword arguments taken from the parsed value.
      The call binds exactly when the value is an object whose keys are the
      four parameters; serialising the bound values then cannot fail, so the
      report is the object itself. Anything else raises inside the loop's
      handler and gives None. */
  function Bind(args: Json.Value): (r: Option<map<string, Json.Value>>)
    ensures r.Some? ==> IsReport(r.value)
  {
    if args.Object? && args.fields.Keys == Params then Some(args.fields) else None
  }

  /** Binding is the partial inverse of wrapping a report as an object: it
      gives back every report unchanged, and it succeeds on nothing else. */
  lemma BindRoundTrip(r: map<string, Json.Value>, args: Json.Value)
    ensures IsReport(r) ==> Bind(Json.Object(r)) == Some(r)
    ensures Bind(args) == Some(r) ==> args == Json.Object(r)
    ensures Bind(args).Some? <==> args.Object? && IsReport(args.fields)
  {
  }

  /** The report built from a plain-text answer of the model. Its summary is
      the message text, or null when the message had none. */
  function Implicit(content: Option<string>): (r: map<string, Json.Value>)
    ensures IsReport(r)
  {
    map[
      "title" := Json.Str(ImplicitTitle),
      "summary" := (match content case Some(text) => Json.Str(text) case None => Json.Null),
      "key_points" := Json.Array([]),
      "sources" := Json.Array([])
    ]
  }

  /** The fixed report of the degraded response. */
  function ErrorReport(): (r: map<string, Json.Value>)
    ensures IsReport(r)
  {
    map[
      "title" := Json.Str(ErrorTitle),
      "summary" := Json.Str(ErrorSummary),
      "key_points" := Json.Array([]),
      "sources" := Json.Array([])
    ]
  }
}

=== FILE: scenarios.dfy ===
/** Concrete requests: a model scripted by the length of the transcript it
    is sent, and an arbitrary search provider. */
module Scenarios {
  import opened Wrappers
  import Json
  import opened Transcript
  import SearchTool
  import ReportTool
  import opened Dispatch
  import opened AgentLoop
  import opened Endpoint

  const Question: string := "What are the latest AI advances?"
  const FirstQuery: string := "latest AI advances"
  const SecondQuery: string := "AI research breakthroughs"

  function SearchCall(id: string, query: string): ToolCall {
    ToolCall(id, SearchToolName, Parsed(Json.Object(map["query" := Json.Str(query)])))
  }

  function Report(): map<string, Json.Value> {
    map[
      "title" := Json.Str("AI advances"),
      "summary" := Json.Str("Models got better."),
      "key_points" := Json.Array([Json.Str("one"), Json.Str("two"), Json.Str("three")]),
      "sources" := Json.Array([Json.Str("https://a.example"), Json.Str("https://b.example")])
    ]
  }

  /** Two searches in two turns, then a report call. */
  function Scripted(prompt: seq<Message>): Reply {
    if |prompt| == 2 then Completion(None, [SearchCall("c1", FirstQuery)])
    else if |prompt| == 4 then Completion(None, [SearchCall("c2", SecondQuery)])
    else Completion(None, [ToolCall("c3", ReportToolName, Parsed(Json.Object(Report())))])
  }

  /** Whatever the provider returns, the response lists the two queries in
      the order issued and the report exactly as the model sent it, after
      three model calls. */
  lemma TwoSearchesThenReport(provider: SearchTool.Provider)
    ensures |Agent(Question, Scripted, provider).prompts| == 3
    ensures Research(Question, Scripted, provider)
            == Response(None, [Json.Str(FirstQuery), Json.Str(SecondQuery)], Report())
  {
    var t0 := Initial(Question);
    var c1 := SearchCall("c1", FirstQuery);
    var a1 := t0 + [Assistant(None, [c1])];
    assert [c1][1..] == [];
    var t1 := a1 + [Tool("c1", Text(SearchTool.SearchWeb(c1.args.value, provider, 0)))];
    assert ProcessCalls([c1], [], provider) == Finished(t1[|a1|..], [Json.Str(FirstQuery)], None);
    var c2 := SearchCall("c2", SecondQuery);
    var a2 := t1 + [Assistant(None, [c2])];
    assert [c2][1..] == [];
    var t2 := a2 + [Tool("c2", Text(SearchTool.SearchWeb(c2.args.value, provider, 1)))];
    var s2 := [Json.Str(FirstQuery), Json.Str(SecondQuery)];
    assert ProcessCalls([c2], [Json.Str(FirstQuery)], provider) == Finished(t2[|a2|..], s2, None);
    assert Report().Keys == ReportTool.Params;
    var run2 := Loop(2, t2, s2, Scripted, provider);
    assert run2 == Run(Completed(s2, Report()), [t2]);
    var run1 := Loop(1, t1, [Json.Str(FirstQuery)], Scripted, provider);
    assert run1 == Run(run2.outcome, [t1] + run2.prompts);
  }

  /** A report call that lacks its sources. */
  function MissingSources(prompt: seq<Message>): Reply {
    var partial := map[
      "title" := Json.Str("AI advances"),
      "summary" := Json.Str("Models got better."),
      "key_points" := Json.Array([])
    ];
    Completion(None, [ToolCall("r", ReportToolName, Parsed(Json.Object(partial)))])
  }

  /** A report call that never binds does not end the request: the model
      is called five times and the response is the degraded one carrying
      the no-report message. */
  lemma MissingFieldExhaustsCap(provider: SearchTool.Provider)
    ensures |Agent(Question, MissingSources, provider).prompts| == MaxIterations
    ensures Research(Question, MissingSources, provider)
            == Response(Some(NoReportText), [], ReportTool.ErrorReport())
  {
    forall p: seq<Message> ensures Unproductive(MissingSources(p)) {
      assert "sources" !in MissingSources(p).calls[0].args.value.fields;
    }
    UnproductiveRunFails(0, Initial(Question), [], MissingSources, provider);
  }

  /** The model call raises at once. */
  function ProviderDown(prompt: seq<Message>): Reply {
    Raised("connection refused")
  }

  /** A failing model call is not retried: the response is the degraded
      one with the cause in its error text, after one call. */
  lemma LlmFailureDegrades(provider: SearchTool.Provider)
    ensures |Agent(Question, ProviderDown, provider).prompts| == 1
    ensures Research(Question, ProviderDown, provider)
            == Response(Some(LlmErrorPrefix + "connection refused"), [], ReportTool.ErrorReport())
  {
  }
}

=== FILE: search_tool.dfy ===
/** The `search_web` tool (api.py:21-28) and the way the agent loop invokes
    it with the parsed arguments (api.py:146-150). The search provider is an
    oracle. */
module SearchTool {
  import Json

  /** One result returned by the search provider. */
  datatype Hit = Hit(title: string, url: string, content: string)

  /** What the provider does for one search: return an ordered list of
      results, or raise. */
  datatype Outcome = Found(hits: seq<Hit>) | ProviderError

  /** The search provider as an oracle: its outcome for the search of the
      given ordinal (0 for the first query recorded in the request) and the
      given query value. The ordinal lets the same query fail once and
      succeed later. */
  type Provider = (nat, Json.Value) -> Outcome

  /** The answer to a search that raised. It is written as two literals so
      that the verifier can see its first character: the characters of a
      single literal this long are not visible to it. */
  const FallbackText: string :=
    "Erreur" + " lors de la recherche, continue avec les informations disponibles."

  /** The three labelled lines and the blank line rendered for one result. */
  function Block(h: Hit): string {
    "Titre: " + h.title + "\nURL: " + h.url + "\nContenu: " + h.content + "\n\n"
  }

  /** The text the tool returns for a list of results: the output string
      grows by one block per result, in order. */
  function Format(hits: seq<Hit>): (text: string)
    ensures |text| >= 25 * |hits|
  {
    if |hits| == 0 then ""
    else Format(hits[..|hits| - 1]) + Block(hits[|hits| - 1])
  }

  /** The length of the text for the given results: the sum of the block
      lengths. */
  function Length(hits: seq<Hit>): nat {
    if |hits| == 0 then 0
    else Length(hits[..|hits| - 1]) + |Block(hits[|hits| - 1])|
  }

  /** The tool invoked with keyword arguments taken from a parsed object:
      binding succeeds only when `query` is the sole key, and a binding
      error or a provider error both yield the fallback text. The provider
      is consulted only when binding succeeds. */
  function SearchWeb(args: Json.Value, provider: Provider, ordinal: nat): (text: string)
    ensures text != FallbackText ==>
              args.Object? && args.fields.Keys == {"query"}
              && provider(ordinal, args.fields["query"]).Found?
  {
    if args.Object? && args.fields.Keys == {"query"} then
      match provider(ordinal, args.fields["query"])
      case Found(hits) => Format(hits)
      case ProviderError => FallbackText
    else FallbackText
  }

  /** Formatting distributes over concatenation of result lists. */
  lemma {:induction false} FormatConcat(a: seq<Hit>, b: seq<Hit>)
    ensures Format(a + b) == Format(a) + Format(b)
    decreases |b|
  {
    if |b| == 0 {
      assert a + b == a;
    } else {
      var b', x := b[..|b| - 1], b[|b| - 1];
      assert (a + b)[..|a + b| - 1] == a + b';
      assert (a + b)[|a + b| - 1] == x;
      calc {
        Format(a + b);
        Format(a + b') + Block(x);
        { FormatConcat(a, b'); }
        Format(a) + Format(b') + Block(x);
        Format(a) + (Format(b') + Block(x));
        Format(a) + Format(b);
      }
    }
  }

  /** The text is exactly as long as its blocks together. */
  lemma {:induction false} FormatLength(hits: seq<Hit>)
    ensures |Format(hits)| == Length(hits)
    decreases |hits|
  {
    if |hits| > 0 {
      FormatLength(hits[..|hits| - 1]);
    }
  }

  /** The text is the in-order concatenation of one block per result: the
      block of result i sits between the lengths of the first i and the
      first i + 1 results. */
  lemma {:induction false} BlockAt(hits: seq<Hit>, i: nat)
    requires i < |hits|
    ensures Length(hits[..i]) + |Block(hits[i])| == Length(hits[..i + 1]) <= |Format(hits)|
    ensures Format(hits)[Length(hits[..i])..Length(hits[..i + 1])] == Block(hits[i])
  {
    var pre, rest := hits[..i], hits[i + 1..];
    assert hits == pre + [hits[i]] + rest;
    assert hits[..i + 1] == pre + [hits[i]];
    assert (pre + [hits[i]])[..|pre|] == pre;
    FormatConcat(pre + [hits[i]], rest);
    assert Format(pre + [hits[i]]) == Format(pre) + Block(hits[i]);
    FormatLength(pre);
    FormatLength(pre + [hits[i]]);
  }

  /** The text is empty exactly when the provider returned no result. */
  lemma FormatEmpty(hits: seq<Hit>)
    ensures Format(hits) == "" <==> |hits| == 0
  {
  }

  /** A successful search is never mistaken for a failed one: formatted
      results never equal the fallback text. */
  lemma FormatIsNotFallback(hits: seq<Hit>)
    ensures Format(hits) != FallbackText
  {
    if |hits| > 0 {
      var first := Format([hits[0]]);
      assert [hits[0]][..0] == [] && [hits[0]][0] == hits[0];
      assert Format([]) == "";
      assert first == "" + Block(hits[0]) == Block(hits[0]);
      assert first[0] == 'T';
      FormatConcat([hits[0]], hits[1..]);
      assert [hits[0]] + hits[1..] == hits;
      assert Format(hits)[0] == 'T';
      assert FallbackText[0] == 'E';
    }
  }

  /** The tool's text reveals how the search went: it is the formatted
      results exactly when the arguments bound to the sole `query` parameter
      and the provider answered, and the fallback text otherwise. */
  lemma SearchWebResult(args: Json.Value, provider: Provider, ordinal: nat)
    ensures var text := SearchWeb(args, provider, ordinal);
            var bound := args.Object? && args.fields.Keys == {"query"};
            && (text != FallbackText <==>
                  bound && provider(ordinal, args.fields["query"]).Found?)
            && (bound && provider(ordinal, args.fields["query"]).Found? ==>
                  text == Format(provider(ordinal, args.fields["query"]).hits))
  {
    if args.Object? && args.fields.Keys == {"query"} {
      match provider(ordinal, args.fields["query"])
      case Found(hits) => FormatIsNotFallback(hits);
      case ProviderError =>
    }
  }
}

=== FILE: transcript.dfy ===
/** The conversation exchanged with the language model during one request,
    and the shape of the model's replies (api.py:93-135). */
module Transcript {
  import opened Wrappers
  import Json

  /** The argument text of a tool call, after the attempt to parse it. */
  datatype Args = Unparseable | Parsed(value: Json.Value)

  /** A tool call requested by the model: its identifier, the tool name and
      the arguments. */
  datatype ToolCall = ToolCall(id: string, name: string, args: Args)

  /** The text of a tool answer. The report tool answers with the report
      serialised as JSON; the serialisation is kept abstract as the map it
      serialises. */
  datatype ToolContent = Text(text: string) | ReportDump(fields: map<string, Json.Value>)

  datatype Message =
    | System(text: string)
    | User(text: string)
    | Assistant(content: Option<string>, calls: seq<ToolCall>)
    | Tool(callId: string, answer: ToolContent)

  /** One call to the language model: either the call raised (with the text
      of the exception), or it returned a message with optional text and
      zero or more tool calls. */
  datatype Reply =
    | Raised(cause: string)
    | Completion(content: Option<string>, calls: seq<ToolCall>)

  /** The language model as an oracle: its reply to the transcript sent. The
      transcript strictly grows between two calls of one request, so every
      sequence of replies a request can see is the image of some oracle. */
  type Llm = seq<Message> -> Reply

  const SystemPrompt: string :=
    "Tu es un assistant de recherche expert. Tu dois :\n"
    + "1. Utiliser search_web pour chercher des informations (fais 2-3 recherches sur des angles différents)\n"
    + "2. Toujours terminer en appelant generate_report pour structurer ta réponse finale\n"
    + "Ne réponds jamais en texte libre, utilise toujours generate_report pour conclure."

  /** The transcript a request starts from: the system instructions and the
      caller's question. */
  function Initial(question: string): seq<Message> {
    [System(SystemPrompt), User(question)]
  }

  /** The identifiers of a sequence of tool calls, in order. */
  function CallIds(calls: seq<ToolCall>): (ids: seq<string>)
    ensures |ids| == |calls|
    ensures forall i | 0 <= i < |calls| :: ids[i] == calls[i].id
  {
    if |calls| == 0 then [] else [calls[0].id] + CallIds(calls[1..])
  }

  /** The call identifiers carried by the tool messages of a transcript, in
      order; other messages contribute nothing. */
  function AnsweredIds(messages: seq<Message>): seq<string> {
    if |messages| == 0 then []
    else (if messages[0].Tool? then [messages[0].callId] else []) + AnsweredIds(messages[1..])
  }

  /** Every message is a tool answer to one of the given calls. */
  predicate AnswersTo(messages: seq<Message>, calls: seq<ToolCall>) {
    forall k | 0 <= k < |messages| :: messages[k].Tool? && messages[k].callId in CallIds(calls)
  }
}

=== FILE: wrappers.dfy ===
/** The optional-value datatype used throughout the model, standing in for
    Python's `None`. */
module Wrappers {

  datatype Option<+T> = None | Some(value: T)
}
